=== FILE: README.md ===
# syscordmin decision core, in Dafny

syscordmin is a Discord bot that lets whitelisted users run shell commands on
a server by message (usually a direct message; `on_message` does not check the channel). It also watches the server's public IP address
and tells the whitelisted users when it changes. This project models the
bot's three pieces of pure decision logic in `main.py` as total functions on
strings and sequences. The Discord client, the shell, the HTTP lookup and the
files become explicit inputs and outputs.

- `pystr.dfy` (module `PyStr`) models the Python string operations the bot
  relies on: `str.strip()` with Python's whitespace set, `str.split(",")`,
  `int()` on a token, and the decimal text of an `int` in an f-string.
- `whitelist.dfy` (module `Whitelist`) models `load_whitelist`, which parses
  the `WHITELIST` value tolerantly, and `is_user_allowed`.
- `command.dfy` (module `Command`) models the body of `on_message`. It
  covers the two gates (bot authors, then unauthorized authors), the
  `[RETURN_CODE=…]` result block, and the choice between an inline fenced
  reply and a file attachment.
- `ipwatch.dfy` (module `IpWatch`) models one iteration of the public-IP
  watcher in `loop`.
- `options.dfy` (module `Options`) holds the `Option` type.

Three behaviours of the code are worth knowing:

- `on_message` sends `Executing command: <command>` before it checks the
  whitelist. An unauthorized author therefore gets two replies: that echo
  and the refusal. The model keeps this order (`Command.OnMessage`).
- The watcher stores the looked-up IP as is, but reads it back stripped. An
  IP with surrounding whitespace would never match what is stored, so it
  would be announced as a change on every pass
  (`IpWatch.UnstrippedIpAlwaysAnnounced`). The lookup service returns IPs
  without whitespace, so this only matters if the lookup changes.
- "The block contains `\n[OUTPUT]\n` followed by stdout" is not a test for
  the output section: stderr can contain that text
  (`Command.OutputTagInsideErrors`). The layout is therefore stated by
  position. The output tag directly follows the header exactly when stdout is
  not blank (`Command.FormatResultLayout`).

## Model

| member | source | states |
|---|---|---|
| PyStr.Strip | main.py:45 | `token.strip()` never lengthens its token; StripShape below states exactly what it keeps |
| PyStr.StripLeftShape | main.py:45 | stripping the front drops only whitespace, and what is left is empty or starts with a non-space character |
| PyStr.StripRightShape | main.py:45 | stripping the back drops only whitespace, and what is left is empty or ends with a non-space character |
| PyStr.StripShape | main.py:45 | `strip()` returns an infix of the token with only whitespace outside it; the result is empty exactly when the token is all whitespace |
| PyStr.StripIgnoresPadding | main.py:45 | whitespace added around a token does not change its strip |
| PyStr.StripIdempotent | main.py:87 | stripping twice gives the same result as stripping once |
| PyStr.Split | main.py:43 | `split(",")` returns one more piece than there are commas, and no piece contains a comma |
| PyStr.SplitJoin | main.py:43 | joining the pieces with commas gives back the original string, so nothing is lost or reordered |
| PyStr.SplitAtComma | main.py:43 | splitting `a + "," + b` gives the pieces of `a` followed by the pieces of `b` |
| PyStr.SplitNoComma | main.py:43 | a string without a comma splits into itself alone |
| PyStr.ParseInt | main.py:44-47 | `int()` on an already stripped token succeeds exactly on an optional sign followed by one or more ASCII digits (otherwise `ValueError`; see "Left out" for Python's digit-count limit); the value is never positive after a minus sign and never negative without one |
| PyStr.Decimal | main.py:123 | the text of an integer in an f-string is non-empty, starts with a minus sign exactly when the integer is negative, and is followed by digits with no leading zero (only zero itself is written `0`) |
| PyStr.ParseDecimal | main.py:45 | parsing the decimal text Python prints for an integer gives that integer back |
| PyStr.DecimalCharacters | main.py:123 | the printed form of an integer is non-empty and contains only a minus sign and digits |
| Whitelist.ParseId | main.py:45 | a token yields an id exactly when its stripped form is an integer literal |
| Whitelist.LoadWhitelist | main.py:40-50 | `load_whitelist` returns at most one id per comma-separated token |
| Whitelist.IsUserAllowed | main.py:52-53 | a user is allowed exactly when their id occurs somewhere in the loaded whitelist |
| Whitelist.Values | main.py:42-48 | the loop collects at most one id per token |
| Whitelist.ValuesMembers | main.py:44-48 | an id is collected exactly when some token converts to it |
| Whitelist.ValuesAppend | main.py:43-48 | ids are collected in token order and duplicates are kept |
| Whitelist.LoadWhitelistLoop | main.py:40-50 | the imperative loop never fails; it collects exactly the values of the tokens that convert, in order, and at most one per token |
| Whitelist.LoadWhitelistConcat | main.py:43-48 | the whitelist of `a + "," + b` is the whitelist of `a` followed by the whitelist of `b` |
| Whitelist.EmptyWhitelist | main.py:41-53 | an empty or unset `WHITELIST` loads as the empty list, so no user is allowed |
| Whitelist.GarbageWhitelist | main.py:43-48 | if no token converts to an integer, the whitelist is empty |
| Whitelist.PaddedTokenParses | main.py:45 | whitespace around a token does not change the id read from it |
| Whitelist.AllowedIffListed | main.py:43-53 | `is_user_allowed` is true exactly when some token of `WHITELIST` converts to the user's id |
| Whitelist.LoadOneId | main.py:43-48 | a single id written in decimal loads as a one-element whitelist holding that id |
| Whitelist.WhitelistRoundTrip | main.py:40-50 | any list of ids written as comma-separated decimals loads back as the same list, order and duplicates included |
| Command.AssembleLayout | main.py:123-127 | the header comes first; the output tag comes right after it exactly when the output section is present, followed by stdout; the errors tag follows exactly when the errors section is present, followed by stderr to the end; the block's length is the header plus the present sections and nothing else, so an absent section leaves no trace |
| Command.FormatResult | main.py:123-127 | the block is never shorter than its `[RETURN_CODE=<rc>]` header, and is longer exactly when stdout or stderr is not blank |
| Command.FormatResultLayout | main.py:123-127 | the block opens with `[RETURN_CODE=<rc>]`; `\n[OUTPUT]\n` plus unstripped stdout follows exactly when stdout is not blank; `\n[ERRORS]\n` plus unstripped stderr comes after that exactly when stderr is not blank; the block's length is the header's plus each present tag and stream, so a blank stream adds nothing |
| Command.OutputTagInsideErrors | main.py:124-127 | with blank stdout and a stderr that holds the output tag, the block still contains the tag, after the errors tag; so a section is recognised by its position, not by the tag occurring somewhere |
| Command.HeaderRoundTrip | main.py:123 | reading the return code from a header gives back the formatted code, whatever follows the header |
| Command.ReturnCodeRoundTrip | main.py:122-127 | the return code read from any result block is the command's own return code |
| Command.Deliver | main.py:129-136 | the block goes as a file exactly when it is longer than 1900 characters, and the file holds the whole block; otherwise the reply is the fenced block, at most 1908 characters |
| Command.DeliverLossless | main.py:129-136 | removing the fence from the inline reply, or taking the file's contents, gives back exactly the block: nothing is truncated |
| Command.OnMessage | main.py:107-136 | a message is ignored exactly when its author is a bot or the bot itself; a command runs exactly when the author is not ignored and is whitelisted; every author who is not ignored first gets the `Executing command` echo; a rejected author gets the refusal; an executed command's reply delivers its whole result block, as a file exactly when that block is longer than 1900 characters and otherwise inline as exactly that block inside a code fence (three backticks and a newline before it, a newline and three backticks after it) |
| Command.UnauthorizedNeverRuns | main.py:117-120 | an unauthorized author never gets a command run, and what they are told does not depend on the command's result |
| Command.BotsIgnored | main.py:111-112 | a message from a bot, or from the bot itself, produces no action at all |
| Command.EchoHiExample | main.py:123-136 | return code 0 with stdout `hi\n` and empty stderr gives `[RETURN_CODE=0]\n[OUTPUT]\nhi\n`, which is sent inline in a fence |
| IpWatch.StoredIp | main.py:84-89 | the IP compared against is empty when there is no file, no longer than the file's contents, and has no whitespace at either end |
| IpWatch.Decide | main.py:90-99 | an empty lookup result gives a warning that names the stored IP; a different non-empty IP gives an update to that IP, with a message naming the old and new IPs; an equal IP gives no action |
| IpWatch.DecideIdempotent | main.py:90-99 | deciding again with the same IP on what the first decision left stored changes nothing, and is silent when the lookup succeeded |
| IpWatch.Iterate | main.py:83-99 | an empty lookup result warns and leaves the file alone; a changed IP is written to the file and announced; the iteration is silent exactly when the lookup succeeded and matches the stripped file contents, and then the file is unchanged |
| IpWatch.IterateFileIdempotent | main.py:85-99 | a second iteration with the same lookup result leaves the file as the first iteration left it |
| IpWatch.IterateQuietAfterChange | main.py:85-99 | if the looked-up IP has no surrounding whitespace, a second iteration with it announces nothing |
| IpWatch.UnstrippedIpAlwaysAnnounced | main.py:87-98 | a looked-up IP with surrounding whitespace never matches the stored value, so every iteration writes it and announces a change |

## Left out

- The interactive shell session engine (viewport paging, scroll states, process adapter, session controller and export) is not in `main.py` and is not part of this model.
- The Discord client, command tree, typing indicator, `channel.send` and the DM helpers `send_msg_to_user` / `send_msg_to_all_users` (main.py:65-78) are network I/O. Replies are `Command.Reply` values, and a watcher broadcast is the message in `IpWatch.Tick`.
- `subprocess.run` is a foreign call. Its return code, stdout and stderr are the `Command.Completed` input.
- `getPublicIP` (main.py:55-63) is an HTTP request. Its result string is an input. The empty string stands for a non-200 response (main.py:58-60). A lookup that raises, on a connection error (main.py:57) or a body without an `ip` field (main.py:61), is caught at main.py:100-101. That iteration broadcasts nothing and leaves the file unchanged, and the model has no input for it.
- Reading and writing `public_ip.txt`, and writing and removing the temporary output file (main.py:130-134), are filesystem I/O. The file's contents are an `Option<string>` input and output, and the attachment is `Command.Upload` carrying the block.
- Logging, `.env` loading, the token check and `BOT.run` (main.py:151-174) are process plumbing.
- The endless hourly loop and its `sleep` (main.py:80-82, 102) are timing; the model covers one iteration.
- The exception handlers (main.py:100-101, 137-139) only catch failures of the I/O left out above.
- The `/init` slash command (main.py:141-147) is outside the modelled core. It uses the same `is_user_allowed` check.
- PyStr.ParseInt: a simplification of Python `int()`. It accepts an optional sign followed by ASCII digits. It does not accept `_` digit separators (`int("1_000")`) or non-ASCII Unicode digits, which Python does; for those tokens the model drops what Python would keep. It also does not model the limit on the number of digits that Python 3.11 and later (and the 3.7.14, 3.8.14, 3.9.14 and 3.10.7 security releases) apply to `int()` on a string: by default a token of more than 4300 digits raises `ValueError` and `load_whitelist` skips it, whereas the model keeps it. Python's `int()` also ignores whitespace around the literal and the model does not; this cannot show in `load_whitelist`, which strips each token first (main.py:45).
- Whitelist.WhitelistRoundTrip: holds for every list of ids only because the digit-count limit above is not modelled. In Python, an id longer than 4300 digits would be dropped on loading; Discord ids are 17 to 20 digits long.
- The bot's own id (`BOT.user.id`) is a parameter of `Command.OnMessage`.

=== FILE: command.dfy ===
/** The decision logic of the bot's `on_message` handler: which messages it
    ignores, which authors it turns away, how it formats the result of a
    one-shot shell command, and whether it replies inline or attaches the
    result as a file. The shell itself is not modelled: the finished
    command's return code, stdout and stderr are inputs. */
module Command {
  import opened Options
  import opened PyStr
  import opened Whitelist

  const ReturnCodeTag: string := "[RETURN_CODE="
  const OutputTag: string := "\n[OUTPUT]\n"
  const ErrorTag: string := "\n[ERRORS]\n"

  /** Results longer than this many characters are sent as a file. */
  const InlineLimit: nat := 1900
  const FenceOpen: string := "```\n"
  const FenceClose: string := "\n```"

  const NotAuthorized: string := "You are not authorized to use this bot."

  datatype Author = Author(id: int, isBot: bool)
  datatype Message = Message(author: Author, content: string)

  /** What `subprocess.run(..., capture_output=True, text=True)` hands back. */
  datatype Completed = Completed(returnCode: int, stdout: string, stderr: string)

  /** A reply in the channel: a text message, or a file attachment with the
      given contents. */
  datatype Reply = Say(text: string) | Upload(content: string)

  /** What the handler does with one message: nothing, a refusal without
      running anything, or running `command` and replying. */
  datatype Outcome =
    | Ignored
    | Rejected(replies: seq<Reply>)
    | Executed(command: string, replies: seq<Reply>)

  /** The acknowledgement sent before anything else, to every author the
      handler does not ignore. */
  function Announcement(command: string): string
  {
    "Executing command: " + command
  }

  /** `s and len(s.strip()) > 0`: the stream holds something other than
      whitespace. */
  predicate HasContent(s: string)
  {
    Strip(s) != []
  }

  function Header(returnCode: int): string
  {
    ReturnCodeTag + Decimal(returnCode) + "]"
  }

  /** `tag + body` when the section is present, nothing otherwise. */
  function Section(tag: string, body: string, present: bool): string
  {
    if present then tag + body else []
  }

  /** A header followed by the output section when `hasOutput` and the
      errors section when `hasErrors`, in that order. */
  function Assemble(header: string, stdout: string, hasOutput: bool, stderr: string, hasErrors: bool): string
  {
    header + Section(OutputTag, stdout, hasOutput) + Section(ErrorTag, stderr, hasErrors)
  }

  /** The output tag opens what follows the header exactly when the output
      section is present: the errors tag differs from it in its third
      character. */
  lemma OutputPlacement(header: string, stdout: string, hasOutput: bool, rest: string)
    requires rest == [] || (|rest| >= |ErrorTag| && rest[..|ErrorTag|] == ErrorTag)
    ensures var r := header + Section(OutputTag, stdout, hasOutput) + rest;
            var h := |header|;
            hasOutput <==> h + |OutputTag| <= |r| && r[h..h + |OutputTag|] == OutputTag
    ensures var r := header + Section(OutputTag, stdout, hasOutput) + rest;
            var h := |header| + |OutputTag|;
            hasOutput ==> r[h..h + |stdout|] == stdout
  {
    var r := header + Section(OutputTag, stdout, hasOutput) + rest;
    var h := |header|;
    if hasOutput {
      assert r == header + OutputTag + (stdout + rest);
      assert r[h..h + |OutputTag|] == OutputTag;
      assert r[h + |OutputTag|..h + |OutputTag| + |stdout|] == stdout;
    } else {
      assert r == header + rest;
      if h + |OutputTag| <= |r| {
        assert r[h + 2] == ErrorTag[2];
      }
    }
  }

  /** The errors tag sits right after the header and output section exactly
      when the errors section is present, and stderr runs from there to the
      end. */
  lemma ErrorsPlacement(front: string, stderr: string, hasErrors: bool)
    ensures var r := front + Section(ErrorTag, stderr, hasErrors);
            var e := |front|;
            hasErrors <==> e + |ErrorTag| <= |r| && r[e..e + |ErrorTag|] == ErrorTag
    ensures var r := front + Section(ErrorTag, stderr, hasErrors);
            hasErrors ==> r[|front| + |ErrorTag|..] == stderr
  {
    if hasErrors {
      var r := front + Section(ErrorTag, stderr, hasErrors);
      assert r == front + ErrorTag + stderr;
      assert r[|front|..|front| + |ErrorTag|] == ErrorTag;
    }
  }

  /** Where each part of an assembled block sits: the header first; the
      `[OUTPUT]` tag right after it exactly when the output section is
      present, followed by stdout verbatim; the `[ERRORS]` tag right after
      those exactly when the errors section is present, followed by stderr
      verbatim up to the end. */
  lemma AssembleLayout(header: string, stdout: string, hasOutput: bool, stderr: string, hasErrors: bool)
    ensures var r := Assemble(header, stdout, hasOutput, stderr, hasErrors);
            |header| <= |r| && r[..|header|] == header
    ensures var r := Assemble(header, stdout, hasOutput, stderr, hasErrors);
            var h := |header|;
            hasOutput <==> h + |OutputTag| <= |r| && r[h..h + |OutputTag|] == OutputTag
    ensures var r := Assemble(header, stdout, hasOutput, stderr, hasErrors);
            var h := |header| + |OutputTag|;
            hasOutput ==> r[h..h + |stdout|] == stdout
    ensures var r := Assemble(header, stdout, hasOutput, stderr, hasErrors);
            var e := |header| + (if hasOutput then |OutputTag| + |stdout| else 0);
            hasErrors <==> e + |ErrorTag| <= |r| && r[e..e + |ErrorTag|] == ErrorTag
    ensures var r := Assemble(header, stdout, hasOutput, stderr, hasErrors);
            var e := |header| + (if hasOutput then |OutputTag| + |stdout| else 0);
            hasErrors ==> r[e + |ErrorTag|..] == stderr
    ensures |Assemble(header, stdout, hasOutput, stderr, hasErrors)|
            == |header| + (if hasOutput then |OutputTag| + |stdout| else 0)
               + (if hasErrors then |ErrorTag| + |stderr| else 0)
  {
    var o := Section(OutputTag, stdout, hasOutput);
    var e := Section(ErrorTag, stderr, hasErrors);
    var r := header + o + e;
    assert r == header + (o + e);
    assert r[..|header|] == header;
    OutputPlacement(header, stdout, hasOutput, e);
    ErrorsPlacement(header + o, stderr, hasErrors);
  }

  /** The text block `on_message` builds from a finished command: the
      return-code header, then an `[OUTPUT]` section when stdout is not
      blank, then an `[ERRORS]` section when stderr is not blank. */
  function FormatResult(returnCode: int, stdout: string, stderr: string): (r: string)
    ensures |r| >= |Header(returnCode)|
    ensures HasContent(stdout) || HasContent(stderr) <==> |r| > |Header(returnCode)|
  {
    Assemble(Header(returnCode), stdout, HasContent(stdout), stderr, HasContent(stderr))
  }

  /** The layout of a result block, in the streams' own terms: each section
      is present exactly when its stream is not blank, and carries the
      stream unstripped. */
  lemma FormatResultLayout(returnCode: int, stdout: string, stderr: string)
    ensures var r := FormatResult(returnCode, stdout, stderr);
            |Header(returnCode)| <= |r| && r[..|Header(returnCode)|] == Header(returnCode)
    ensures var r := FormatResult(returnCode, stdout, stderr);
            var h := |Header(returnCode)|;
            HasContent(stdout) <==> h + |OutputTag| <= |r| && r[h..h + |OutputTag|] == OutputTag
    ensures var r := FormatResult(returnCode, stdout, stderr);
            var h := |Header(returnCode)| + |OutputTag|;
            HasContent(stdout) ==> r[h..h + |stdout|] == stdout
    ensures var r := FormatResult(returnCode, stdout, stderr);
            var e := |Header(returnCode)| + (if HasContent(stdout) then |OutputTag| + |stdout| else 0);
            HasContent(stderr) <==> e + |ErrorTag| <= |r| && r[e..e + |ErrorTag|] == ErrorTag
    ensures var r := FormatResult(returnCode, stdout, stderr);
            var e := |Header(returnCode)| + (if HasContent(stdout) then |OutputTag| + |stdout| else 0);
            HasContent(stderr) ==> r[e + |ErrorTag|..] == stderr
    ensures |FormatResult(returnCode, stdout, stderr)|
            == |Header(returnCode)| + (if HasContent(stdout) then |OutputTag| + |stdout| else 0)
               + (if HasContent(stderr) then |ErrorTag| + |stderr| else 0)
  {
    AssembleLayout(Header(returnCode), stdout, HasContent(stdout), stderr, HasContent(stderr));
  }

  /** The first position of `c` in `s`, if any. */
  function IndexOf(s: string, c: char): (r: Option<nat>)
    ensures r.Some? ==> r.value < |s| && s[r.value] == c && c !in s[..r.value]
    ensures r.None? ==> c !in s
  {
    if |s| == 0 then None
    else if s[0] == c then Some(0)
    else
      match IndexOf(s[1..], c)
      case None => None
      case Some(k) =>
        assert s[..k + 1] == [s[0]] + s[1..][..k];
        Some(k + 1)
  }

  /** Reads the return code back from the header of a result block. */
  function ReturnCodeOf(block: string): Option<int>
  {
    var n := |ReturnCodeTag|;
    if |block| >= n && block[..n] == ReturnCodeTag then
      match IndexOf(block[n..], ']')
      case Some(k) => ParseInt(block[n..][..k])
      case None => None
    else None
  }

  /** Whatever follows a header, reading it back gives the formatted code. */
  lemma HeaderRoundTrip(returnCode: int, rest: string)
    ensures ReturnCodeOf(Header(returnCode) + rest) == Some(returnCode)
  {
    var r := Header(returnCode) + rest;
    var n := |ReturnCodeTag|;
    var d := Decimal(returnCode);
    DecimalCharacters(returnCode);
    assert r[..n] == ReturnCodeTag;
    var tail := r[n..];
    assert tail == d + "]" + rest;
    assert tail[..|d|] == d;
    assert tail[|d|] == ']';
    assert ']' !in d;
    assert IndexOf(tail, ']') == Some(|d|);
    ParseDecimal(returnCode);
  }

  /** The header always names the command's own return code: reading it back
      gives the code that was formatted, whatever the streams held. */
  lemma ReturnCodeRoundTrip(returnCode: int, stdout: string, stderr: string)
    ensures ReturnCodeOf(FormatResult(returnCode, stdout, stderr)) == Some(returnCode)
  {
    var r := FormatResult(returnCode, stdout, stderr);
    var h := Header(returnCode);
    AssembleLayout(h, stdout, HasContent(stdout), stderr, HasContent(stderr));
    assert r == h + r[|h|..];
    HeaderRoundTrip(returnCode, r[|h|..]);
  }

  /** The reply for a result block: inline in a code fence when it is at
      most `InlineLimit` characters long, otherwise the whole block as a
      file. */
  function Deliver(output: string): (reply: Reply)
    ensures reply.Upload? <==> |output| > InlineLimit
    ensures reply.Upload? ==> reply.content == output
    ensures reply.Say? ==> |reply.text| <= InlineLimit + |FenceOpen| + |FenceClose|
    ensures reply.Say? ==> |reply.text| >= |FenceOpen| + |FenceClose|
                           && reply.text[..|FenceOpen|] == FenceOpen
                           && reply.text[|reply.text| - |FenceClose|..] == FenceClose
  {
    if |output| > InlineLimit then Upload(output)
    else Say(FenceOpen + output + FenceClose)
  }

  /** The text a reader gets out of a reply: the attachment's contents, or
      the message without its code fence. */
  function Delivered(reply: Reply): string
  {
    match reply
    case Upload(content) => content
    case Say(text) =>
      if |text| >= |FenceOpen| + |FenceClose| then text[|FenceOpen|..|text| - |FenceClose|]
      else text
  }

  /** Neither way of replying loses or truncates any of the result. */
  lemma DeliverLossless(output: string)
    ensures Delivered(Deliver(output)) == output
  {
    if |output| <= InlineLimit {
      var text := FenceOpen + output + FenceClose;
      assert text[|FenceOpen|..|text| - |FenceClose|] == output;
    }
  }

  /** The whole handler for one message. `run` is what executing the
      message's content in a shell returns; it is consulted only when the
      author passes both gates. */
  function OnMessage(msg: Message, selfId: int, whitelist: seq<int>, run: Completed): (o: Outcome)
    ensures o.Ignored? <==> msg.author.isBot || msg.author.id == selfId
    ensures o.Executed? <==> !o.Ignored? && IsUserAllowed(msg.author.id, whitelist)
    ensures !o.Ignored? ==> |o.replies| == 2 && o.replies[0] == Say(Announcement(msg.content))
    ensures o.Rejected? ==> o.replies[1] == Say(NotAuthorized)
    ensures o.Executed? ==> o.command == msg.content
    ensures o.Executed? ==>
              Delivered(o.replies[1]) == FormatResult(run.returnCode, run.stdout, run.stderr)
    ensures o.Executed? ==>
              (o.replies[1].Upload? <==> |FormatResult(run.returnCode, run.stdout, run.stderr)| > InlineLimit)
    ensures o.Executed? && o.replies[1].Say? ==>
              o.replies[1].text == FenceOpen + FormatResult(run.returnCode, run.stdout, run.stderr) + FenceClose
  {
    if msg.author.isBot || msg.author.id == selfId then Ignored
    else if !IsUserAllowed(msg.author.id, whitelist) then
      Rejected([Say(Announcement(msg.content)), Say(NotAuthorized)])
    else
      var block := FormatResult(run.returnCode, run.stdout, run.stderr);
      DeliverLossless(block);
      assert Delivered(Deliver(block)) == block;
      Executed(msg.content, [Say(Announcement(msg.content)), Deliver(block)])
  }

  /** An author outside the whitelist never gets a command run, and what
      they are told does not depend on what the command would have done. */
  lemma UnauthorizedNeverRuns(msg: Message, selfId: int, whitelist: seq<int>, run1: Completed, run2: Completed)
    requires !IsUserAllowed(msg.author.id, whitelist)
    ensures !OnMessage(msg, selfId, whitelist, run1).Executed?
    ensures OnMessage(msg, selfId, whitelist, run1) == OnMessage(msg, selfId, whitelist, run2)
  {
  }

  /** A bot's message, including the bot's own, gets no reply at all, from
      any author id and with any whitelist. */
  lemma BotsIgnored(msg: Message, selfId: int, whitelist: seq<int>, run: Completed)
    requires msg.author.isBot || msg.author.id == selfId
    ensures OnMessage(msg, selfId, whitelist, run) == Ignored
  {
  }

  /** The header for return code 0. */
  lemma HeaderOfZero()
    ensures Header(0) == "[RETURN_CODE=0]"
  {
    assert NatDigits(0) == [DigitChar(0)];
  }

  /** `hi` followed by a newline is not blank; the empty stream is. */
  lemma HiHasContent()
    ensures HasContent("hi\n")
    ensures !HasContent("")
  {
    assert StripLeft("hi\n") == "hi\n";
    assert StripRight("hi\n") == StripRight("hi");
  }

  /** The block for return code 0, stdout `hi` and empty stderr. */
  lemma FormatHi()
    ensures FormatResult(0, "hi\n", "") == "[RETURN_CODE=0]\n[OUTPUT]\nhi\n"
  {
    HeaderOfZero();
    HiHasContent();
    assert FormatResult(0, "hi\n", "") == Assemble("[RETURN_CODE=0]", "hi\n", true, "", false);
  }

  /** `echo hi` exiting with 0 and printing `hi`: only an output section,
      replied inline. */
  lemma EchoHiExample()
    ensures FormatResult(0, "hi\n", "") == "[RETURN_CODE=0]\n[OUTPUT]\nhi\n"
    ensures Deliver(FormatResult(0, "hi\n", "")) == Say(FenceOpen + "[RETURN_CODE=0]\n[OUTPUT]\nhi\n" + FenceClose)
  {
    FormatHi();
  }

  /** The `[OUTPUT]` tag can occur in a block that has no output section,
      carried by stderr; so its presence is only meaningful right after the
      header, which is where `FormatResultLayout` looks for it. The block
      here has a blank stdout, so it has no output section. */
  lemma OutputTagInsideErrors(returnCode: int)
    ensures var b := FormatResult(returnCode, "", OutputTag);
            var at := |Header(returnCode)| + |ErrorTag|;
            at + |OutputTag| <= |b| && b[at..at + |OutputTag|] == OutputTag
  {
    assert !IsSpace(OutputTag[1]);
    assert StripLeft(OutputTag) == OutputTag[1..];
    assert HasContent(OutputTag);
    assert !HasContent("");
    var h := Header(returnCode);
    assert FormatResult(returnCode, "", OutputTag) == h + ErrorTag + OutputTag;
  }
}

=== FILE: ipwatch.dfy ===
/** One iteration of the bot's hourly public-IP watcher: compare the IP just
    looked up with the one stored on disk, then warn, record and announce a
    change, or stay silent. The HTTP lookup, the file and the hourly sleep
    are not modelled: the lookup's result and the file's contents are
    inputs, the new file contents and the broadcast message are outputs. */
module IpWatch {
  import opened Options
  import opened PyStr

  const UnavailablePrefix: string := "Public IP address could not be retrieved. Last known Public IP: "
  const ChangedPrefix: string := "Public IP address has changed from "
  const ChangedInfix: string := " to "

  function ChangedMessage(stored: string, current: string): string
  {
    ChangedPrefix + stored + ChangedInfix + current
  }

  /** What the watcher compares against: the stripped contents of the IP
      file, or the empty string when there is no file yet. */
  function StoredIp(file: Option<string>): (r: string)
    ensures file.None? ==> r == []
    ensures file.Some? ==> |r| <= |file.value|
    ensures r != [] ==> !IsSpace(r[0]) && !IsSpace(r[|r| - 1])
  {
    match file
    case Some(contents) =>
      StripShape(contents);
      Strip(contents)
    case None => []
  }

  /** The three things an iteration can do. The empty current IP stands for
      a failed lookup. */
  datatype Decision =
    | Warn(message: string)
    | Update(message: string, newIp: string)
    | Quiet

  /** The watcher's decision: warn, naming the last known IP, when the lookup
      failed; record and announce the new IP, naming both, when it differs
      from the stored one; otherwise do nothing. */
  function Decide(current: string, stored: string): (d: Decision)
    ensures d.Warn? <==> current == []
    ensures d.Update? <==> current != [] && current != stored
    ensures d.Quiet? <==> current != [] && current == stored
    ensures d.Warn? ==> |d.message| == |UnavailablePrefix| + |stored|
                        && d.message[..|UnavailablePrefix|] == UnavailablePrefix
                        && d.message[|UnavailablePrefix|..] == stored
    ensures d.Update? ==> d.newIp == current
    ensures d.Update? ==> |d.message| == |ChangedPrefix| + |stored| + |ChangedInfix| + |current|
                          && d.message[|ChangedPrefix|..|ChangedPrefix| + |stored|] == stored
                          && d.message[|d.message| - |current|..] == current
  {
    if current == [] then
      var m := UnavailablePrefix + stored;
      assert m[|UnavailablePrefix|..] == stored;
      Warn(m)
    else if current != stored then
      var m := ChangedMessage(stored, current);
      assert m == ChangedPrefix + (stored + ChangedInfix + current);
      Update(m, current)
    else Quiet
  }

  /** The value the decision leaves stored. */
  function NextStored(stored: string, d: Decision): string
  {
    if d.Update? then d.newIp else stored
  }

  /** Deciding again with the same current IP on what the first decision
      left stored changes nothing more: a change is announced once. */
  lemma DecideIdempotent(current: string, stored: string)
    ensures var s1 := NextStored(stored, Decide(current, stored));
            NextStored(s1, Decide(current, s1)) == s1
    ensures current != [] ==>
              Decide(current, NextStored(stored, Decide(current, stored))) == Quiet
  {
  }

  /** The effect of one loop iteration: the message sent to every whitelisted
      user, if any, and the IP file afterwards. */
  datatype Tick = Tick(broadcast: Option<string>, file: Option<string>)

  /** One pass of the loop body: read the stored IP, decide, and on a change
      overwrite the file with the current IP as looked up (unstripped). */
  function Iterate(current: string, file: Option<string>): (t: Tick)
    ensures current == [] ==> t.file == file
    ensures current == [] ==> t.broadcast == Some(UnavailablePrefix + StoredIp(file))
    ensures current != [] && current != StoredIp(file) ==>
              t.file == Some(current) && t.broadcast == Some(ChangedMessage(StoredIp(file), current))
    ensures t.broadcast.None? <==> current != [] && current == StoredIp(file)
    ensures t.broadcast.None? ==> t.file == file
  {
    match Decide(current, StoredIp(file))
    case Warn(m) => Tick(Some(m), file)
    case Update(m, ip) => Tick(Some(m), Some(ip))
    case Quiet => Tick(None, file)
  }

  /** A second pass with the same lookup result leaves the file as the first
      pass left it. */
  lemma IterateFileIdempotent(current: string, file: Option<string>)
    ensures var f1 := Iterate(current, file).file;
            Iterate(current, f1).file == f1
  {
  }

  /** When the looked-up IP carries no surrounding whitespace (as the lookup
      service returns it), a second pass with the same IP is silent: the
      change was announced exactly once. */
  lemma IterateQuietAfterChange(current: string, file: Option<string>)
    requires current != []
    requires Strip(current) == current
    ensures Iterate(current, Iterate(current, file).file).broadcast == None
  {
  }

  /** A looked-up IP with whitespace at either end never matches the stored
      IP, which is read back stripped: every pass announces a change. */
  lemma UnstrippedIpAlwaysAnnounced(current: string, file: Option<string>)
    requires Strip(current) != current
    ensures Iterate(current, file).broadcast.Some?
    ensures Iterate(current, file).file == Some(current)
  {
    if file.Some? {
      StripIdempotent(file.value);
    }
  }
}

=== FILE: options.dfy ===
/** A value that may be absent, used where the source either produces a
    value or raises and skips (Python's `int()` on a bad token). */
module Options {

  datatype Option<+T> = None | Some(value: T)
}

=== FILE: pystr.dfy ===
/** The few Python `str` operations the bot relies on, modelled on
    `seq<char>`: `str.strip()`, `str.split(",")`, `int(str)` and the
    decimal rendering of an `int` inside an f-string. */
module PyStr {
  import opened Options

  /** Python's `str.isspace()` on one character: the code points that
      `str.strip()` with no argument removes. */
  predicate IsSpace(c: char)
  {
    var n := c as int;
    || (0x09 <= n <= 0x0D) || (0x1C <= n <= 0x20)
    || n == 0x85 || n == 0xA0 || n == 0x1680
    || (0x2000 <= n <= 0x200A)
    || n == 0x2028 || n == 0x2029 || n == 0x202F || n == 0x205F || n == 0x3000
  }

  predicate AllSpace(s: string)
  {
    forall i :: 0 <= i < |s| ==> IsSpace(s[i])
  }

  /* ---------------------------- str.strip() ---------------------------- */

  /** Drops the leading whitespace. */
  function StripLeft(s: string): string
  {
    if |s| > 0 && IsSpace(s[0]) then StripLeft(s[1..]) else s
  }

  /** Drops the trailing whitespace. */
  function StripRight(s: string): string
  {
    if |s| > 0 && IsSpace(s[|s| - 1]) then StripRight(s[..|s| - 1]) else s
  }

  /** `s.strip()`. */
  function Strip(s: string): (r: string)
    ensures |r| <= |s|
  {
    StripLeftShape(s);
    StripRightShape(StripLeft(s));
    StripRight(StripLeft(s))
  }

  /** `StripLeft` keeps the longest suffix that does not start with
      whitespace: everything it drops is whitespace. */
  lemma {:induction false} StripLeftShape(s: string)
    ensures var r := StripLeft(s);
            |r| <= |s| && r == s[|s| - |r|..] && AllSpace(s[..|s| - |r|])
            && (r == [] || !IsSpace(r[0]))
    decreases |s|
  {
    if |s| > 0 && IsSpace(s[0]) {
      StripLeftShape(s[1..]);
      var r := StripLeft(s);
      assert s[..|s| - |r|] == [s[0]] + s[1..][..|s| - 1 - |r|];
    }
  }

  /** `StripRight` keeps the longest prefix that does not end with
      whitespace: everything it drops is whitespace. */
  lemma {:induction false} StripRightShape(s: string)
    ensures var r := StripRight(s);
            |r| <= |s| && r == s[..|r|] && AllSpace(s[|r|..])
            && (r == [] || !IsSpace(r[|r| - 1]))
    decreases |s|
  {
    if |s| > 0 && IsSpace(s[|s| - 1]) {
      StripRightShape(s[..|s| - 1]);
      var r := StripRight(s);
      assert s[|r|..] == s[..|s| - 1][|r|..] + [s[|s| - 1]];
    }
  }

  /** `s.strip()` is the infix of `s` left once the whitespace at both ends
      is removed: it is empty exactly for all-whitespace strings, and
      otherwise starts and ends with a non-space character. */
  lemma StripShape(s: string)
    ensures Strip(s) == [] <==> AllSpace(s)
    ensures var r := Strip(s);
            r != [] ==> !IsSpace(r[0]) && !IsSpace(r[|r| - 1])
    ensures var r := Strip(s);
            exists i :: 0 <= i <= |s| - |r| && s[i..i + |r|] == r
                        && AllSpace(s[..i]) && AllSpace(s[i + |r|..])
  {
    var t := StripLeft(s);
    StripLeftShape(s);
    var r := StripRight(t);
    StripRightShape(t);
    var i := |s| - |t|;
    assert s[i..i + |r|] == r;
    assert s[i + |r|..] == t[|r|..];
    assert r == [] ==> AllSpace(s) by {
      assert s == s[..i] + t;
    }
    assert r != [] ==> r[0] == t[0];
  }

  lemma {:induction false} StripLeftSkipsSpace(w: string, u: string)
    requires AllSpace(w)
    ensures StripLeft(w + u) == StripLeft(u)
    decreases |w|
  {
    if |w| > 0 {
      assert (w + u)[0] == w[0];
      assert (w + u)[1..] == w[1..] + u;
      StripLeftSkipsSpace(w[1..], u);
    } else {
      assert w + u == u;
    }
  }

  lemma {:induction false} StripRightSkipsSpace(u: string, w: string)
    requires AllSpace(w)
    ensures StripRight(u + w) == StripRight(u)
    decreases |w|
  {
    if |w| > 0 {
      assert (u + w)[|u + w| - 1] == w[|w| - 1];
      assert (u + w)[..|u + w| - 1] == u + w[..|w| - 1];
      StripRightSkipsSpace(u, w[..|w| - 1]);
    } else {
      assert u + w == u;
    }
  }

  /** Leading whitespace removal commutes with appending anything once a
      non-space character has been met. */
  lemma {:induction false} StripLeftAppend(t: string, u: string)
    requires StripLeft(t) != []
    ensures StripLeft(t + u) == StripLeft(t) + u
    decreases |t|
  {
    if IsSpace(t[0]) {
      assert (t + u)[1..] == t[1..] + u;
      StripLeftAppend(t[1..], u);
    }
  }

  /** Whitespace around a token never changes what `strip()` makes of it. */
  lemma StripIgnoresPadding(w1: string, t: string, w2: string)
    requires AllSpace(w1) && AllSpace(w2)
    ensures Strip(w1 + t + w2) == Strip(t)
  {
    assert w1 + t + w2 == w1 + (t + w2);
    StripLeftSkipsSpace(w1, t + w2);
    assert StripLeft(w1 + t + w2) == StripLeft(t + w2);
    if StripLeft(t) == [] {
      StripLeftShape(t);
      assert AllSpace(t);
      assert AllSpace(t + w2);
      StripLeftSkipsSpace(t + w2, []);
      assert t + w2 + [] == t + w2;
      assert StripLeft(t + w2) == [];
    } else {
      StripLeftAppend(t, w2);
      StripRightSkipsSpace(StripLeft(t), w2);
    }
  }

  /** A string with no whitespace at either end is its own strip. */
  lemma StripNoEdgeSpace(s: string)
    requires s == [] || (!IsSpace(s[0]) && !IsSpace(s[|s| - 1]))
    ensures Strip(s) == s
  {
  }

  /** Stripping an already stripped string changes nothing. */
  lemma StripIdempotent(s: string)
    ensures Strip(Strip(s)) == Strip(s)
  {
    StripShape(s);
    StripNoEdgeSpace(Strip(s));
  }

  /* ------------------------- str.split(",") -------------------------- */

  function CommaCount(s: string): nat
  {
    if |s| == 0 then 0 else (if s[0] == ',' then 1 else 0) + CommaCount(s[1..])
  }

  /** `sep.join(pieces)` with `sep == ","`. */
  function Join(pieces: seq<string>): string
  {
    if |pieces| == 0 then []
    else if |pieces| == 1 then pieces[0]
    else pieces[0] + [','] + Join(pieces[1..])
  }

  /** `s.split(",")`: one piece per comma-separated field, always at least
      one (the empty string splits into one empty piece), and no piece holds
      a comma. */
  function Split(s: string): (r: seq<string>)
    ensures |r| == CommaCount(s) + 1
    ensures forall k :: 0 <= k < |r| ==> ',' !in r[k]
  {
    if |s| == 0 then [[]]
    else
      var rest := Split(s[1..]);
      if s[0] == ',' then [[]] + rest
      else [[s[0]] + rest[0]] + rest[1..]
  }

  /** Joining the pieces with commas gives back the split string: nothing
      is lost or reordered by `split`. */
  lemma {:induction false} SplitJoin(s: string)
    ensures Join(Split(s)) == s
    decreases |s|
  {
    if |s| > 0 {
      SplitJoin(s[1..]);
      var rest := Split(s[1..]);
      assert s == [s[0]] + s[1..];
      if s[0] != ',' {
        var r := Split(s);
        assert r[1..] == rest[1..];
        if |rest| > 1 {
          assert Join(r) == [s[0]] + (rest[0] + [','] + Join(rest[1..]));
        }
      }
    }
  }

  /** A string without a comma is a single field. */
  lemma {:induction false} SplitNoComma(s: string)
    requires ',' !in s
    ensures Split(s) == [s]
    decreases |s|
  {
    if |s| > 0 {
      assert ',' !in s[1..] by {
        assert forall c :: c in s[1..] ==> c in s;
      }
      SplitNoComma(s[1..]);
      assert s == [s[0]] + s[1..];
    }
  }

  /** Splitting at a comma splits the two sides independently. */
  lemma {:induction false} SplitAtComma(a: string, b: string)
    ensures Split(a + [','] + b) == Split(a) + Split(b)
    decreases |a|
  {
    if |a| == 0 {
      assert a + [','] + b == [','] + b;
      assert ([','] + b)[1..] == b;
    } else {
      assert (a + [','] + b)[1..] == a[1..] + [','] + b;
      SplitAtComma(a[1..], b);
      assert (a + [','] + b)[0] == a[0];
    }
  }

  /* ------------------------------ int() ------------------------------- */

  predicate IsDigit(c: char)
  {
    '0' <= c <= '9'
  }

  predicate AllDigits(s: string)
  {
    forall i :: 0 <= i < |s| ==> IsDigit(s[i])
  }

  function DigitValue(c: char): nat
    requires IsDigit(c)
  {
    c as int - '0' as int
  }

  function DigitChar(d: nat): (c: char)
    requires d < 10
    ensures IsDigit(c) && DigitValue(c) == d
  {
    ('0' as int + d) as char
  }

  /** The value of a run of decimal digits, most significant first; leading
      zeros are allowed, as `int("007") == 7`. */
  function DigitsValue(s: string): nat
    requires AllDigits(s)
  {
    if |s| == 0 then 0 else DigitsValue(s[..|s| - 1]) * 10 + DigitValue(s[|s| - 1])
  }

  /** The digits of `s` once an optional leading sign is removed. */
  function Unsigned(s: string): string
  {
    if |s| > 0 && (s[0] == '+' || s[0] == '-') then s[1..] else s
  }

  /** The literals accepted by the model of `int()`: an optional `+` or `-`
      followed by one or more ASCII decimal digits. */
  predicate IsIntLiteral(s: string)
  {
    |Unsigned(s)| > 0 && AllDigits(Unsigned(s))
  }

  /** `int(s)` on a string with no surrounding whitespace: `Some` exactly
      when `s` is an integer literal (a `ValueError` otherwise), negative
      only after a minus sign. Python's `int()` would also skip whitespace
      around the literal; the whitelist strips each token first. */
  function ParseInt(s: string): (r: Option<int>)
    ensures r.Some? <==> IsIntLiteral(s)
    ensures r.Some? && s[0] == '-' ==> r.value <= 0
    ensures r.Some? && s[0] != '-' ==> r.value >= 0
  {
    var u := Unsigned(s);
    if |u| > 0 && AllDigits(u) then
      var v: int := DigitsValue(u);
      Some(if s[0] == '-' then -v else v)
    else None
  }

  /* ------------------------- f"{n}" for an int ------------------------ */

  function NatDigits(n: nat): (r: string)
    ensures |r| > 0 && AllDigits(r)
    ensures r[0] == '0' <==> n == 0
    ensures |r| == 1 || r[0] != '0'
  {
    if n < 10 then [DigitChar(n)] else NatDigits(n / 10) + [DigitChar(n % 10)]
  }

  /** The decimal text Python prints for an `int`: a minus sign for
      negative values, no leading zeros, no sign for the others. */
  function Decimal(n: int): (r: string)
    ensures |r| > 0
    ensures r[0] == '-' <==> n < 0
    ensures var u := if n < 0 then r[1..] else r;
            |u| > 0 && AllDigits(u) && (|u| == 1 || u[0] != '0')
  {
    if n < 0 then "-" + NatDigits(-n) else NatDigits(n)
  }

  lemma {:induction false} NatDigitsValue(n: nat)
    ensures DigitsValue(NatDigits(n)) == n
    decreases n
  {
    if n >= 10 {
      NatDigitsValue(n / 10);
      var d := NatDigits(n);
      assert d[..|d| - 1] == NatDigits(n / 10);
    }
  }

  /** `int(f"{n}") == n`: parsing inverts the decimal rendering. */
  lemma ParseDecimal(n: int)
    ensures ParseInt(Decimal(n)) == Some(n)
  {
    if n < 0 {
      NatDigitsValue(-n);
      assert Unsigned(Decimal(n)) == NatDigits(-n);
    } else {
      NatDigitsValue(n);
      assert Unsigned(Decimal(n)) == NatDigits(n);
    }
  }

  /** The decimal rendering is made of a sign and digits only, so it has no
      whitespace, no comma and no bracket. */
  lemma DecimalCharacters(n: int)
    ensures |Decimal(n)| > 0
    ensures forall i :: 0 <= i < |Decimal(n)| ==>
              Decimal(n)[i] == '-' || IsDigit(Decimal(n)[i])
  {
  }
}

=== FILE: whitelist.dfy ===
/** The bot's whitelist: the `WHITELIST` environment value is a
    comma-separated list of Discord user ids, parsed tolerantly (bad tokens
    are dropped, never reported), and a user is allowed exactly when their
    id was parsed from it. */
module Whitelist {
  import opened Options
  import opened PyStr

  /** One token of the list: stripped, then converted with `int()`. */
  function ParseId(token: string): (r: Option<int>)
    ensures r.Some? <==> IsIntLiteral(Strip(token))
  {
    ParseInt(Strip(token))
  }

  /** Each token's outcome under `int(token.strip())`, position by
      position. */
  function ParseAll(tokens: seq<string>): (r: seq<Option<int>>)
    ensures |r| == |tokens|
    ensures forall k :: 0 <= k < |tokens| ==> r[k] == ParseId(tokens[k])
  {
    seq(|tokens|, k requires 0 <= k < |tokens| => ParseId(tokens[k]))
  }

  /** The values of the successful conversions, in order: the tokens whose
      conversion raised `ValueError` contribute nothing. */
  function Values(parsed: seq<Option<int>>): (r: seq<int>)
    ensures |r| <= |parsed|
  {
    if |parsed| == 0 then []
    else
      var front := Values(parsed[..|parsed| - 1]);
      match parsed[|parsed| - 1]
      case Some(id) => front + [id]
      case None => front
  }

  /** `load_whitelist()` applied to the value of `WHITELIST`. */
  function LoadWhitelist(env: string): (r: seq<int>)
    ensures |r| <= CommaCount(env) + 1
  {
    Values(ParseAll(Split(env)))
  }

  /** Some token of `tokens` parses to `id`. */
  predicate Listed(tokens: seq<string>, id: int)
  {
    exists k :: 0 <= k < |tokens| && ParseId(tokens[k]) == Some(id)
  }

  /** An id is collected exactly when some conversion produced it. */
  lemma {:induction false} ValuesMembers(parsed: seq<Option<int>>, id: int)
    ensures id in Values(parsed) <==> Some(id) in parsed
    decreases |parsed|
  {
    if |parsed| > 0 {
      var n := |parsed| - 1;
      ValuesMembers(parsed[..n], id);
      assert parsed == parsed[..n] + [parsed[n]];
    }
  }

  /** The values of consecutive outcome lists are concatenated: order is kept
      and duplicates are not merged. */
  lemma {:induction false} ValuesAppend(a: seq<Option<int>>, b: seq<Option<int>>)
    ensures Values(a + b) == Values(a) + Values(b)
    decreases |b|
  {
    if |b| == 0 {
      assert a + b == a;
    } else {
      var b' := b[..|b| - 1];
      assert (a + b)[..|a + b| - 1] == a + b';
      assert (a + b)[|a + b| - 1] == b[|b| - 1];
      ValuesAppend(a, b');
    }
  }

  /** `is_user_allowed(user)`: membership of the user's id. */
  function IsUserAllowed(userId: int, whitelist: seq<int>): (b: bool)
    ensures b <==> exists k :: 0 <= k < |whitelist| && whitelist[k] == userId
  {
    userId in whitelist
  }

  /** The `for` loop of `load_whitelist`, token by token: it never fails, and
      collects exactly the values of the tokens that convert. */
  method LoadWhitelistLoop(env: string) returns (whitelist: seq<int>)
    ensures whitelist == Values(ParseAll(Split(env)))
    ensures |whitelist| <= CommaCount(env) + 1
  {
    var tokens := Split(env);
    ghost var parsed := ParseAll(tokens);
    whitelist := [];
    var i := 0;
    while i < |tokens|
      invariant 0 <= i <= |tokens|
      invariant whitelist == Values(parsed[..i])
    {
      assert parsed[..i + 1][..i] == parsed[..i];
      match ParseId(tokens[i]) {
        case Some(id) =>
          whitelist := whitelist + [id];
        case None =>
      }
      i := i + 1;
    }
    assert parsed[..i] == parsed;
  }

  /** Two whitelists joined by a comma load as the two loaded lists in a row. */
  lemma LoadWhitelistConcat(a: string, b: string)
    ensures LoadWhitelist(a + [','] + b) == LoadWhitelist(a) + LoadWhitelist(b)
  {
    var ta, tb := Split(a), Split(b);
    SplitAtComma(a, b);
    ParseAllAppend(ta, tb);
    ValuesAppend(ParseAll(ta), ParseAll(tb));
  }

  lemma ParseAllAppend(a: seq<string>, b: seq<string>)
    ensures ParseAll(a + b) == ParseAll(a) + ParseAll(b)
  {
  }

  /** An unset or empty `WHITELIST` allows nobody: `"".split(",")` is `[""]`
      and `int("")` raises. */
  lemma EmptyWhitelist(userId: int)
    ensures LoadWhitelist("") == []
    ensures !IsUserAllowed(userId, LoadWhitelist(""))
  {
    assert Split("") == [[]];
    assert ParseId([]) == None;
    assert ParseAll([[]]) == [None];
    assert Values([None]) == Values([]);
  }

  /** A whitelist none of whose tokens is an integer loads as empty. */
  lemma GarbageWhitelist(env: string)
    requires forall k :: 0 <= k < |Split(env)| ==> ParseId(Split(env)[k]) == None
    ensures LoadWhitelist(env) == []
  {
    var r := LoadWhitelist(env);
    if r != [] {
      ValuesMembers(ParseAll(Split(env)), r[0]);
    }
  }

  /** Whitespace around a token does not change the id read from it. */
  lemma PaddedTokenParses(w1: string, token: string, w2: string)
    requires AllSpace(w1) && AllSpace(w2)
    ensures ParseId(w1 + token + w2) == ParseId(token)
  {
    StripIgnoresPadding(w1, token, w2);
  }

  /** A user is allowed exactly when some token of the list parses to the
      user's id. */
  lemma AllowedIffListed(env: string, userId: int)
    ensures IsUserAllowed(userId, LoadWhitelist(env)) <==> Listed(Split(env), userId)
  {
    var tokens := Split(env);
    var parsed := ParseAll(tokens);
    ValuesMembers(parsed, userId);
    assert Some(userId) in parsed <==> Listed(tokens, userId) by {
      if Some(userId) in parsed {
        var k :| 0 <= k < |parsed| && parsed[k] == Some(userId);
        assert ParseId(tokens[k]) == Some(userId);
      }
      if Listed(tokens, userId) {
        var k :| 0 <= k < |tokens| && ParseId(tokens[k]) == Some(userId);
        assert parsed[k] == Some(userId);
      }
    }
  }

  /** How an operator writes the list: the decimal ids separated by commas. */
  function FormatWhitelist(ids: seq<int>): string
  {
    if |ids| == 0 then []
    else if |ids| == 1 then Decimal(ids[0])
    else Decimal(ids[0]) + [','] + FormatWhitelist(ids[1..])
  }

  /** A single decimal id loads as itself. */
  lemma LoadOneId(id: int)
    ensures LoadWhitelist(Decimal(id)) == [id]
  {
    DecimalCharacters(id);
    var d := Decimal(id);
    assert ',' !in d;
    SplitNoComma(d);
    StripNoEdgeSpace(d);
    ParseDecimal(id);
    assert ParseAll([d]) == [Some(id)];
    assert Values([Some(id)]) == Values([]) + [id];
  }

  /** Every list of ids survives being written out and loaded back, in
      order and with its duplicates. */
  lemma {:induction false} WhitelistRoundTrip(ids: seq<int>)
    ensures LoadWhitelist(FormatWhitelist(ids)) == ids
    decreases |ids|
  {
    if |ids| == 0 {
      EmptyWhitelist(0);
    } else if |ids| == 1 {
      LoadOneId(ids[0]);
    } else {
      LoadWhitelistConcat(Decimal(ids[0]), FormatWhitelist(ids[1..]));
      LoadOneId(ids[0]);
      WhitelistRoundTrip(ids[1..]);
    }
  }
}
